=== FILE: README.md ===
# tasks-native, the stateful layer

A model of the logic behind the screens of a React Native to-do app. It covers:

- The task-list screen: the fetched collection, the "show done tasks" preference, the add-task modal flag and the rendered list.
- The add-task modal's form.
- A task row's presentation and gestures.
- The sign-in / sign-up form, with its validity rules and submit dispatch.
- The start-up gate, which routes a stored session to the app or to the auth screen.
- The shared error and success alerts.

Each operation is a pure function. It takes the outcomes of the calls it awaits (server responses, storage reads) as parameters and returns the new state plus the effects it issued, in the order issued. The kinds of effect are: requests, fetch-again, alerts, storage writes, the `Authorization` header, navigation, and a console warning.

The JavaScript semantics the source relies on are written out in their own modules:

- truthiness;
- property lookup that may give `undefined`;
- `String()` inside template literals;
- `String.prototype.trim` and its whitespace set;
- UTF-16 `length`;
- `reduce` with `&&`.

React's re-render rules are modelled the same way. An effect re-runs only when one of its listed dependencies changed. `setTasks` always hands over a new array.

Modules, by file:

| file | module | models |
|---|---|---|
| `wrappers.dfy` | `Wrappers` | `Option` |
| `js_values.dfy` | `JsValues` | JSON values, truthiness, property lookup, `String()` |
| `js_strings.dfy` | `JsStrings` | `trim`, UTF-16 length, decimal rendering |
| `dates.dfy` | `Dates` | day and second-of-day instants |
| `effects.dfy` | `Effects` | stored blobs, requests, errors, the effect log and its views |
| `common.dfy` | `Common` | `src/common.js` |
| `tasks.dfy` | `Tasks` | the task record and `src/components/Task.jsx` |
| `task_filter.dfy` | `TaskFilter` | `filterTasks` |
| `task_list.dfy` | `TaskList` | the rest of `src/screens/TaskList.jsx` |
| `add_task.dfy` | `AddTask` | `src/screens/AddTask.jsx` |
| `auth.dfy` | `Auth` | `src/screens/Auth.jsx` |
| `auth_or_app.dfy` | `AuthOrApp` | `src/screens/AuthOrApp.jsx` |
| `flows.dfy` | `Flows` | properties across components |

The central invariant is `TaskList.Settled`: the rendered list equals `filterTasks(tasks, showDone)`. The operations do not assume it. `TaskList.ReachableStatesAreSettled` proves that it holds after every sequence of events from mounting on.

The fetch bound is 20:59:59 on the target day, not the end of that day (`src/screens/TaskList.jsx:74`); `TaskList.MaxDate` uses 20:59:59. `TaskList.TodayBoundPrecedesNowIff` states the consequence: for today's list the bound lies before the current time exactly when the time of day is past 20:59:59.

## Model

| member | source | states |
|---|---|---|
| TaskFilter.FilterTasks | src/screens/TaskList.jsx:92-102 | with done tasks shown, the visible list is the collection itself; otherwise it is the pending filter (whose order and multiplicity the lemmas below fix): every entry is pending, every pending task appears, and nothing outside the collection appears |
| TaskFilter.Pending | src/screens/TaskList.jsx:97-98 | the `!task.doneAt` filter: no longer than the input, all pending, and a task is in it exactly when it is a pending task of the input |
| TaskFilter.PendingIsASelection | src/screens/TaskList.jsx:97-98 | the hidden-done list is a subsequence of the tasks, at increasing positions, that picks exactly the pending positions |
| TaskFilter.PendingIsTheOnlySelection | src/screens/TaskList.jsx:97-98 | any subsequence that picks exactly the pending positions is the filtered list, so the filter keeps the original order |
| TaskFilter.PendingKeepsMultiplicity | src/screens/TaskList.jsx:97-98 | each pending task occurs in the filtered list as often as in the collection, and done tasks do not occur at all |
| TaskFilter.PendingOfPendingOnly | src/screens/TaskList.jsx:97-98 | a list of pending tasks passes the filter unchanged |
| TaskFilter.FilterIdempotent | src/screens/TaskList.jsx:92-102 | filtering the visible list again, with the same flag, changes nothing |
| TaskFilter.PendingConcat | src/screens/TaskList.jsx:97-98 | the filter distributes over concatenation |
| TaskList.Initial | src/screens/TaskList.jsx:30-33 | the screen mounts with no tasks, nothing visible, done tasks shown and the modal closed, which is settled |
| TaskList.Rerender | src/screens/TaskList.jsx:54-56 | the filter effect runs exactly when the collection was replaced or the flag changed, and leaves the rendered list as it was otherwise |
| TaskList.MaxDate | src/screens/TaskList.jsx:72-74 | the fetch bound is the day `today + daysAhead` at 20:59:59 |
| TaskList.MaxDateIgnoresTimeOfDay | src/screens/TaskList.jsx:72-74 | two moments on the same calendar day give the same bound |
| TaskList.MaxDateMonotone | src/screens/TaskList.jsx:72-74 | a wider window never has an earlier bound |
| TaskList.TodayBoundPrecedesNowIff | src/screens/TaskList.jsx:72-74 | today's bound lies before the current time exactly when the time of day is past 20:59:59 |
| TaskList.LoadTasks | src/screens/TaskList.jsx:70-81 | exactly one fetch up to the bound, issued first; success replaces the collection wholesale and re-filters; failure keeps the state and then reports the error once; nothing else is issued |
| TaskList.ToggleVisibility | src/screens/TaskList.jsx:83-90 | the flag flips and the new value is stored as `{showDoneTasks: v}`; the collection is unchanged and nothing is requested |
| TaskList.LoadPreference | src/screens/TaskList.jsx:35-47 | a missing key, a failed read, unparseable text and a falsy parsed value keep the flag; otherwise it becomes the stored property's truthiness; only failures are logged |
| TaskList.PreferenceRoundTrip | src/screens/TaskList.jsx:83-90 | the value `toggleVisibility` stores is read back by `getTasksStates` as the same flag |
| TaskList.PreferenceDefault | src/screens/TaskList.jsx:30 | with nothing usable stored, done tasks stay shown |
| TaskList.SubmitEffects | src/screens/TaskList.jsx:110-120 | a non-blank task is posted first, once, as typed with its date; a failure is reported; exactly one fetch follows, as the last effect; nothing else is issued |
| TaskList.AddTask | src/screens/TaskList.jsx:104-121 | a description that trims to nothing raises only the invalid-data alert, with no request and no fetch and leaves the state unchanged; any other closes the modal and issues the submit effects; the collection is never patched |
| TaskList.ToggleTaskStatus | src/screens/TaskList.jsx:63-68 | the toggle request first; then a fetch only on success; a failure is silent; nothing else is issued; the state is unchanged |
| TaskList.DeleteTask | src/screens/TaskList.jsx:123-130 | the delete request first; then a fetch on success, or the error alert and no fetch on failure; nothing else is issued; the state is unchanged |
| TaskList.ThenReload | src/screens/TaskList.jsx:66 | the fetch a step asked for runs after its effects, adding exactly one GET to the bound, the fetch error if it failed, and no further fetch; a step that asked for none is left as it is |
| TaskList.Dispatch | src/screens/TaskList.jsx:160-163 | each event reaches its handler with its own outcome (the fetch, the preference read, the eye, `onSave={addTask}`, the row callbacks); every event keeps the list settled and sends at most one request; the "+" button opens the modal and cancelling closes it, with no effect |
| TaskList.RunRequestsAtMostEvents | src/screens/TaskList.jsx:63-130 | a run of events never sends more requests than it has events |
| TaskList.RunKeepsSettled | src/screens/TaskList.jsx:54-56 | any sequence of events from a settled state ends settled |
| TaskList.ReachableStatesAreSettled | src/screens/TaskList.jsx:54-56 | from mounting on, the rendered list always equals `filterTasks(tasks, showDone)` |
| Tasks.DescriptionDecoration | src/components/Task.jsx:20-22 | the description is struck through iff the task is done |
| Tasks.DisplayedDate | src/components/Task.jsx:23 | the row shows the completion date when done, the estimate otherwise |
| Tasks.CheckViewOf | src/components/Task.jsx:29-39 | the check mark is drawn iff the task is done, the pending circle otherwise |
| Tasks.RowCallback | src/components/Task.jsx:70-73 | every gesture calls back with the row's own id; a check press toggles, and the right action and the left swipe delete |
| Tasks.RowPresentationAgrees | src/components/Task.jsx:20-39 | strike-through, check mark and the completion date appear together |
| Flows.RowEvent | src/screens/TaskList.jsx:192-197 | the list hands a row `toggleTaskStatus` and `deleteTask` unchanged |
| Flows.GestureTargetsItsRow | src/components/Task.jsx:72-73 | a gesture on a row sends exactly one request, about that row's task |
| Flows.DoneRowsAreTheHiddenOnes | src/components/Task.jsx:75 | a row drawn as done is exactly one the list hides when done tasks are not shown |
| Flows.ShowThenHideDone | src/screens/TaskList.jsx:83-102 | with one done and one pending task fetched, both are listed and, after the eye is pressed, only the pending one |
| Flows.DeleteThenReloadHidesTask | src/screens/TaskList.jsx:123-126 | after a successful delete and its fetch, a task the server no longer returns is not shown |
| Flows.FailedToggleIsInvisible | src/screens/TaskList.jsx:63-68 | a failed toggle leaves the state as it was, with no alert and no fetch |
| AddTask.Initial | src/screens/AddTask.jsx:17-19 | the form starts with an empty description, the current date and the picker hidden |
| AddTask.ResetState | src/screens/AddTask.jsx:21-25 | reset returns the form to the initial one for the current time |
| AddTask.ChangeDescription | src/screens/AddTask.jsx:80 | typing replaces only the description |
| AddTask.OpenDatePicker | src/screens/AddTask.jsx:54 | tapping the date only shows the picker |
| AddTask.DateSelected | src/screens/AddTask.jsx:41-44 | a selection sets the date and hides the picker, keeping the description |
| AddTask.Save | src/screens/AddTask.jsx:27-35 | the parent receives exactly the current description, untrimmed, and date, and the form is reset whatever the parent does |
| AddTask.Cancel | src/screens/AddTask.jsx:69-71 | every cancel path calls `onCancel` and leaves the form as it was |
| AddTask.SaveForgetsPreviousTask | src/screens/AddTask.jsx:34 | saving twice hands an empty description with the reset date the second time |
| AddTask.PickDateKeepsDraft | src/screens/AddTask.jsx:41-54 | opening the picker and selecting a date changes only the date, hides the picker again, and the selection is what a save hands over |
| AddTask.CancelKeepsDraft | src/screens/AddTask.jsx:84 | after a cancel, saving hands the same task as saving before it would have |
| Flows.SaveThroughModal | src/screens/AddTask.jsx:27-34 | saving from the modal resets the form and posts the text as typed exactly when it is not blank, and then closes the modal |
| Flows.BlankSaveLeavesEmptyOpenModal | src/screens/TaskList.jsx:105-108 | a blank text keeps the modal open, but the form has already been emptied |
| Flows.CancelThroughModal | src/screens/TaskList.jsx:162 | dismissing calls `onCancel`, the list closes the modal, and the draft is kept |
| JsStrings.TrimEmptyIffBlank | src/screens/TaskList.jsx:105 | a description trims to nothing exactly when all of it is whitespace |
| Auth.Validations | src/screens/Auth.jsx:28-34 | two checks in sign-in mode, four in sign-up mode |
| Auth.ReduceAndIsConjunction | src/screens/Auth.jsx:35 | the `&&` left fold is true exactly when every check is |
| Auth.ValidityMeansRules | src/screens/Auth.jsx:27-35 | the computed validity is the sign-in rules in sign-in mode and the sign-up rules in sign-up mode |
| Auth.SignUpValidImpliesSignInValid | src/screens/Auth.jsx:28-35 | for the same fields, sign-up validity implies sign-in validity |
| Auth.Rerender | src/screens/Auth.jsx:36 | validity is recomputed exactly when one of name, email, password or confirmation changed |
| Auth.Initial | src/screens/Auth.jsx:20-25 | the form starts empty, in sign-in mode and invalid |
| Auth.SetField | src/screens/Auth.jsx:109-134 | an input changes only its own field, and validity is recomputed when the value really changed |
| Auth.ToggleMode | src/screens/Auth.jsx:151-153 | the mode flips while the fields and the stored validity stay as they were |
| Auth.CleanState | src/screens/Auth.jsx:38-44 | all four fields become empty, the mode becomes sign-in, and the form is invalid unless nothing changed |
| Auth.SignUp | src/screens/Auth.jsx:54-67 | the four fields are posted first; then success shows the success alert and cleans the form, and failure reports the error and keeps the fields; nothing else is issued |
| Auth.SignedInEffects | src/screens/Auth.jsx:75-90 | the response is stored under "userData"; a non-null response then sets the bearer header and resets navigation to the task screens with it, and nothing else; a null response is reported as a TypeError instead |
| Auth.SignIn | src/screens/Auth.jsx:69-94 | the credentials are posted and the form never changes; success follows with the signed-in effects; failure reports the error and stores nothing |
| Auth.Submit | src/screens/Auth.jsx:46-52 | nothing is sent while the button is disabled; otherwise sign-up in sign-up mode and sign-in in sign-in mode |
| Auth.StaleValidityPostsInvalidSignUp | src/screens/Auth.jsx:153 | valid sign-in fields followed by the mode switch leave the button enabled, so a sign-up with an empty name and confirmation is posted |
| Auth.ToggleModeRevalidated | src/screens/Auth.jsx:151-153 | the intended mode switch: fields kept, validity recomputed for the new mode |
| Auth.Apply | src/screens/Auth.jsx:27-36 | with the intended mode switch, every event keeps the stored validity equal to the rules of the current mode |
| Auth.IntendedSubmitSendsOnlyValidData | src/screens/Auth.jsx:137-139 | with the intended mode switch, a sign-up request carries fields passing the sign-up rules and a sign-in request credentials passing the sign-in rules |
| AuthOrApp.ParsedSession | src/screens/AuthOrApp.jsx:9-16 | a key never written parses to null; stored text parses or throws |
| AuthOrApp.ControlLogin | src/screens/AuthOrApp.jsx:8-26 | a parsed object with a truthy token goes to the app with the bearer header, and only such a session does; everything else goes to the auth screen without a header; a parse failure is logged; a failed read leaves the spinner |
| AuthOrApp.DecisionEffects | src/screens/AuthOrApp.jsx:18-25 | the warning, the header and the navigation appear exactly when the decision has them, once each; the header carries the decided value only, and the navigation comes last |
| AuthOrApp.NoSessionRoutesToAuth | src/screens/AuthOrApp.jsx:23-24 | a missing blob, unparseable text, a falsy value or a missing or falsy token all route to the auth screen |
| Flows.SignInSessionPassesGate | src/screens/Auth.jsx:75-78 | the session a successful sign-in stores is routed to the app by the gate, with the same data and the same header |
| Flows.StringTokenRoundTrip | src/screens/AuthOrApp.jsx:18-21 | a non-empty string token comes back as "bearer " followed by it |
| Common.Server | src/common.js:3-4 | localhost on iOS, the emulator host address on every other platform |
| Common.ErrorMessage | src/common.js:9 | the message is the response data when a response exists and its data is truthy, otherwise the error itself |
| Common.ShowError | src/common.js:6-10 | the error alert is titled "Erro!" and carries that message |
| Common.ShowSuccess | src/common.js:12 | the success alert is titled "Sucesso!" and carries the message unchanged |
| Common.ErrorAlertsAreDistinct | src/common.js:6-12 | an error alert is never a success alert, and two error alerts are equal only when they carry the same message |

## Left out

- Rendering: styles, icons, images and layout are not modelled, and neither is the drawer button at `src/screens/TaskList.jsx:168`.
- `moment` formatting is not modelled, because locale text has no bearing on the logic. This covers the subtitle at `src/screens/TaskList.jsx:58-61`, the row date at `src/components/Task.jsx:25-27` and the picker label at `src/screens/AddTask.jsx:49`. Dates are a day number and a second of the day, with no calendar or time zone.
- Request URLs are not modelled. Requests are recorded by kind and payload. The text of the `date=` query would need the `moment` formatting left out above. `Common.Server` models the host choice.
- Async interleaving is not modelled. Each operation is one atomic step that has settled. Two fetches in flight at once cannot be represented. Nor can the stale-closure `filterTasks()` call at `src/screens/TaskList.jsx:77`: the step instead runs the filter effect that follows `setTasks`.
- The mount effect at `src/screens/TaskList.jsx:49-52` is not a function of its own. Its two calls are the `Fetched` and `PreferenceRead` events, which may come in either order.
- The `Platform.OS` check at `src/screens/AddTask.jsx:51` is not modelled, and the picker's visibility is a plain flag. `Platform` is not imported in that file (`src/screens/AddTask.jsx:1-14`).
- A date picker dismissed without a selection is not modelled. `AddTask.DateSelected` always receives a date.
- `getImage` and `getColor` (`src/screens/TaskList.jsx:132-156`) are left out as purely cosmetic.
- `src/components/AuthInput.jsx` is not part of this model. It only passes props through.
- Storage writes and the header assignment are fire-and-forget effects. Their failures are not modelled.
- The content of the `console.warn` message is not modelled; it appears only as a `Warn` effect.
- Fetch responses are assumed to be arrays of tasks, as the server's API defines them. `TaskList.LoadTasks` takes a list of tasks. A response body of another shape is not represented; in the source it would reach `setTasks` and make the filter effect throw outside any `try` (`src/screens/TaskList.jsx:95-98`).
- Numbers are integers: JSON fractions and the exponent notation of `String()` for very large magnitudes are not modelled. JSON text syntax is abstracted: a stored blob either encodes a value or does not parse.
- `doneAt` is a present-or-absent date. The source tests it for truthiness, and a stored date is always truthy.
- Strings with unpaired surrogates cannot be represented, because Dafny characters are Unicode scalar values.
- Navigation is modelled only by its target route and parameters. The commented-out navigation at `src/screens/Auth.jsx:79` is not modelled.

## Findings

| source | as written | input that shows it | evidently intended | confidence | as-written member | corrected member |
|---|---|---|---|---|---|---|
| src/screens/Auth.jsx:36 | the validation effect depends on the four fields but not on `newUser`, so switching modes keeps the validity computed for the other mode | type email "a@b" and password "123456" in sign-in mode, then press "Novo usuário?": the "Registrar" button stays enabled and pressing it posts a sign-up with an empty name and an empty confirmation | validity recomputed for the new mode whenever `newUser` changes | medium, not executed | Auth.StaleValidityPostsInvalidSignUp | Auth.ToggleModeRevalidated |

=== FILE: add_task.dfy ===
/** The add-task modal's form: the description being typed, the chosen date and whether
    the date picker is open. "Now" (`new Date()`) is a parameter. */
module AddTask {
  import opened Dates
  import opened Tasks

  datatype Form = Form(description: string, date: Instant, showDatePicker: bool)

  /** The form as the modal first renders it: no text, today's date, picker closed. */
  function Initial(now: Instant): (f: Form)
    ensures f.description == [] && f.date == now && !f.showDatePicker
  {
    Form([], now, false)
  }

  /** `resetState`: back to the form the modal starts with, whatever was in it. */
  function ResetState(f: Form, now: Instant): (r: Form)
    ensures r == Initial(now)
  {
    Form([], now, false)
  }

  /** Typing into the description field. */
  function ChangeDescription(f: Form, text: string): (r: Form)
    ensures r.description == text && r.date == f.date && r.showDatePicker == f.showDatePicker
  {
    f.(description := text)
  }

  /** Tapping the date text: only opens the picker. */
  function OpenDatePicker(f: Form): (r: Form)
    ensures r.showDatePicker
    ensures r.description == f.description && r.date == f.date
  {
    f.(showDatePicker := true)
  }

  /** The picker's `onChange`: close the picker and take the selected date. */
  function DateSelected(f: Form, selected: Instant): (r: Form)
    ensures r.date == selected && !r.showDatePicker
    ensures r.description == f.description
  {
    f.(showDatePicker := false, date := selected)
  }

  /** What `save` produces: the task handed to the parent's `onSave`, and the form after. */
  datatype Saved = Saved(handed: NewTask, form: Form)

  /** `save`: hand the parent the description exactly as typed (no trimming here) and the
      date, then reset the form, whether or not the parent accepts the task. */
  function Save(f: Form, now: Instant): (r: Saved)
    ensures r.handed.description == f.description && r.handed.date == f.date
    ensures r.form == Initial(now)
  {
    Saved(NewTask(f.description, f.date), ResetState(f, now))
  }

  /** The ways the modal can be dismissed: a tap on the backdrop above or below the form,
      the system back request, and the Cancel button. */
  datatype CancelPath = BackdropAbove | BackdropBelow | RequestClose | CancelButton

  /** What a dismissal does: it calls the parent's `onCancel` (the only outcome there is,
      hence a single constructor) and leaves the form as it is. */
  datatype Dismissal = OnCancelCalled(form: Form)

  /** Every dismissal path is wired to the same `props.onCancel`; the path is a parameter
      only so that the contract says all four behave alike. */
  function Cancel(f: Form, path: CancelPath): (r: Dismissal)
    ensures r.OnCancelCalled?
    ensures r.form == f
  {
    OnCancelCalled(f)
  }

  /** Saving twice in a row hands over an empty description the second time: the form
      does not remember the previous task. */
  lemma SaveForgetsPreviousTask(f: Form, now: Instant, later: Instant)
    ensures Save(Save(f, now).form, later).handed == NewTask([], now)
  {
  }

  /** After a dismissal the typed text and date are still there when the modal reopens;
      only a save clears them. */
  lemma CancelKeepsDraft(f: Form, path: CancelPath, now: Instant)
    ensures Save(Cancel(f, path).form, now).handed == Save(f, now).handed
  {
  }

  /** Picking a date through the picker changes only the date: the form is as before
      apart from the selection, and the picker is hidden again. The selection is what a
      following save hands over. */
  lemma PickDateKeepsDraft(f: Form, selected: Instant, now: Instant)
    requires !f.showDatePicker
    ensures DateSelected(OpenDatePicker(f), selected) == f.(date := selected)
    ensures Save(DateSelected(OpenDatePicker(f), selected), now).handed == NewTask(f.description, selected)
  {
  }
}

=== FILE: auth.dfy ===
/** The sign-in / sign-up screen: four text fields, the mode flag `newUser`, and the
    stored validity `validForm` that enables the submit button, with the submit dispatch
    and what a successful or failed sign-up and sign-in change. */
module Auth {
  import opened Wrappers
  import opened JsValues
  import opened JsStrings
  import opened Effects
  import opened Common

  datatype Form = Form(
    name: string,
    email: string,
    password: string,
    confirmPassword: string,
    newUser: bool,
    validForm: bool)

  /** The sign-in rules: an email with an '@' and a password at least six UTF-16 code
      units long. */
  predicate SignInValid(email: string, password: string)
  {
    email != [] && '@' in email && password != [] && Utf16Length(password) >= 6
  }

  /** The sign-up rules: the sign-in rules, a matching confirmation, and a name with at
      least two code units once trimmed. */
  predicate SignUpValid(name: string, email: string, password: string, confirmPassword: string)
  {
    && SignInValid(email, password)
    && password == confirmPassword
    && name != [] && Utf16Length(Trim(name)) >= 2
  }

  /** The checks the validation effect pushes, in order, for the mode it sees. */
  function Validations(f: Form): (checks: seq<bool>)
    ensures |checks| == if f.newUser then 4 else 2
  {
    [f.email != [] && '@' in f.email, f.password != [] && Utf16Length(f.password) >= 6]
    + (if f.newUser
       then [f.password == f.confirmPassword, f.name != [] && Utf16Length(Trim(f.name)) >= 2]
       else [])
  }

  /** `checks.reduce((t, a) => t && a)` on a non-empty list: a left fold with `&&`. */
  function ReduceAnd(checks: seq<bool>): bool
    requires |checks| >= 1
  {
    if |checks| == 1 then checks[0] else ReduceAnd(checks[..|checks| - 1]) && checks[|checks| - 1]
  }

  /** The left fold is true exactly when every check is. */
  lemma {:induction false} ReduceAndIsConjunction(checks: seq<bool>)
    requires |checks| >= 1
    ensures ReduceAnd(checks) <==> forall i :: 0 <= i < |checks| ==> checks[i]
  {
    if |checks| > 1 {
      var init := checks[..|checks| - 1];
      ReduceAndIsConjunction(init);
      assert forall i :: 0 <= i < |init| ==> init[i] == checks[i];
    }
  }

  /** What the validation effect stores into `validForm`. */
  function Validity(f: Form): bool
  {
    ReduceAnd(Validations(f))
  }

  /** The stored validity means the rules of the mode the effect saw. */
  lemma ValidityMeansRules(f: Form)
    ensures Validity(f) <==> if f.newUser
                             then SignUpValid(f.name, f.email, f.password, f.confirmPassword)
                             else SignInValid(f.email, f.password)
  {
    var checks := Validations(f);
    ReduceAndIsConjunction(checks);
    if Validity(f) {
      assert checks[0] && checks[1];
      if f.newUser { assert checks[2] && checks[3]; }
    }
  }

  /** For the same field values, passing the sign-up rules implies passing the sign-in
      rules. */
  lemma SignUpValidImpliesSignInValid(f: Form)
    ensures Validity(f.(newUser := true)) ==> Validity(f.(newUser := false))
  {
    ValidityMeansRules(f.(newUser := true));
    ValidityMeansRules(f.(newUser := false));
  }

  /** The four fields the validation effect depends on. */
  predicate SameFields(a: Form, b: Form)
  {
    a.name == b.name && a.email == b.email && a.password == b.password
    && a.confirmPassword == b.confirmPassword
  }

  /** The re-render after setters changed `before` into `after`: the validation effect
      runs (with the mode as rendered) only when one of its four fields changed. */
  function Rerender(before: Form, after: Form): (r: Form)
    ensures SameFields(r, after) && r.newUser == after.newUser
    ensures !SameFields(before, after) ==> r.validForm == Validity(after)
    ensures SameFields(before, after) ==> r.validForm == before.validForm
  {
    if SameFields(before, after) then after.(validForm := before.validForm)
    else after.(validForm := Validity(after))
  }

  /** The form on mount: all fields empty, sign-in mode, and the validity the effect
      computes on mount, which is false. */
  function Initial(): (f: Form)
    ensures f.name == [] && f.email == [] && f.password == [] && f.confirmPassword == []
    ensures !f.newUser && !f.validForm
  {
    var empty := Form([], [], [], [], false, false);
    empty.(validForm := Validity(empty))
  }

  datatype Field = Name | Email | Password | ConfirmPassword

  /** An input's `onChangeText`. Setting a field to the value it already has does not
      re-render, so the validity is kept. */
  function SetField(f: Form, field: Field, value: string): (r: Form)
    ensures r.newUser == f.newUser
    ensures field == Name ==> r.name == value && r.email == f.email && r.password == f.password && r.confirmPassword == f.confirmPassword
    ensures field == Email ==> r.email == value && r.name == f.name && r.password == f.password && r.confirmPassword == f.confirmPassword
    ensures field == Password ==> r.password == value && r.name == f.name && r.email == f.email && r.confirmPassword == f.confirmPassword
    ensures field == ConfirmPassword ==> r.confirmPassword == value && r.name == f.name && r.email == f.email && r.password == f.password
    ensures SameFields(f, r) ==> r.validForm == f.validForm
    ensures !SameFields(f, r) ==> r.validForm == Validity(r)
  {
    var after := match field
      case Name => f.(name := value)
      case Email => f.(email := value)
      case Password => f.(password := value)
      case ConfirmPassword => f.(confirmPassword := value);
    Rerender(f, after)
  }

  /** The mode switch as written: `newUser` flips but the validation effect does not list
      it, so the stored validity stays whatever it was. */
  function ToggleMode(f: Form): (r: Form)
    ensures r.newUser == !f.newUser
    ensures SameFields(r, f) && r.validForm == f.validForm
  {
    Rerender(f, f.(newUser := !f.newUser))
  }

  /** `cleanState`: empty fields and sign-in mode; the effect re-runs if a field was not
      already empty. */
  function CleanState(f: Form): (r: Form)
    ensures r.name == [] && r.email == [] && r.password == [] && r.confirmPassword == []
    ensures !r.newUser
    ensures !SameFields(f, r) ==> !r.validForm
    ensures SameFields(f, r) ==> r.validForm == f.validForm
  {
    var r := Rerender(f, Form([], [], [], [], false, f.validForm));
    ValidityMeansRules(Form([], [], [], [], false, f.validForm));
    r
  }

  /** A form after a step, and the effects the step issued. */
  datatype AuthStep = AuthStep(form: Form, effects: seq<Effect>)

  const SignUpSuccessMessage: string := "Usuário cadastrado!"

  /** `signUp`: post the four fields. On success show the success alert and clean the
      form (back to sign-in mode); on failure report the error and keep the fields. */
  function SignUp(f: Form, outcome: Outcome<Json>): (r: AuthStep)
    ensures RequestsOf(r.effects) == [PostSignup(f.name, f.email, f.password, f.confirmPassword)]
    ensures r.effects[0] == Request(PostSignup(f.name, f.email, f.password, f.confirmPassword))
    ensures |r.effects| == 1 + |AlertsOf(r.effects)|
    ensures outcome.Ok? ==> r.form == CleanState(f)
    ensures outcome.Ok? ==> AlertsOf(r.effects) == [ShowSuccess(SignUpSuccessMessage)]
    ensures outcome.Err? ==> r.form == f
    ensures outcome.Err? ==> AlertsOf(r.effects) == [ShowError(outcome.error)]
  {
    var post := Request(PostSignup(f.name, f.email, f.password, f.confirmPassword));
    ViewsOfPair(post, ShowSuccess(SignUpSuccessMessage));
    match outcome
    case Ok(_) => AuthStep(CleanState(f), [post, ShowSuccess(SignUpSuccessMessage)])
    case Err(e) =>
      ViewsOfPair(post, ShowError(e));
      AuthStep(f, [post, ShowError(e)])
  }

  /** What follows a sign-in request the server answered with `data`: the session is
      stored; then, unless reading `data.token` throws because `data` is `null`, the
      header is set and navigation is reset to the task screens. */
  function SignedInEffects(data: Json): (es: seq<Effect>)
    ensures RequestsOf(es) == []
    ensures |es| >= 2 && es[0] == Persist(UserDataKey, Stringify(data))
    ensures !data.JNull? ==> es[1] == SetAuthHeader(Bearer(Property(data, TokenField)))
    ensures !data.JNull? ==> es[|es| - 1] == ResetTo(ToHome(data)) && AlertsOf(es) == []
    ensures !data.JNull? ==> |es| == 3
    ensures data.JNull? ==> AlertsOf(es) == [ShowError(TypeError)]
    ensures data.JNull? ==> es == [Persist(UserDataKey, Stringify(data)), ShowError(TypeError)]
  {
    var store := Persist(UserDataKey, Stringify(data));
    if data.JNull? then
      ViewsOfPair(store, ShowError(TypeError));
      [store, ShowError(TypeError)]
    else
      var header := SetAuthHeader(Bearer(Property(data, TokenField)));
      ViewsOfTriple(store, header, ResetTo(ToHome(data)));
      [store, header, ResetTo(ToHome(data))]
  }

  /** `signIn`: post the credentials. On success store the response under "userData",
      set the `Authorization` header to "bearer " and the token, and reset navigation to
      the task screens with the response as parameters. A `null` response body makes the
      token read throw after the store was issued; that TypeError is reported. On failure
      the error is reported and nothing is stored. The form never changes. */
  function SignIn(f: Form, outcome: Outcome<Json>): (r: AuthStep)
    ensures r.form == f
    ensures RequestsOf(r.effects) == [PostSignin(f.email, f.password)]
    ensures r.effects[0] == Request(PostSignin(f.email, f.password))
    ensures outcome.Ok? ==> r.effects[1..] == SignedInEffects(outcome.data)
    ensures outcome.Err? ==> r.effects == [Request(PostSignin(f.email, f.password)), ShowError(outcome.error)]
  {
    var post := Request(PostSignin(f.email, f.password));
    match outcome
    case Err(e) =>
      ViewsOfPair(post, ShowError(e));
      AuthStep(f, [post, ShowError(e)])
    case Ok(data) =>
      var es := [post] + SignedInEffects(data);
      ViewsOfCons(post, SignedInEffects(data));
      assert es[1..] == SignedInEffects(data);
      AuthStep(f, es)
  }

  /** `signinOrSignup`, behind the button: nothing happens while the stored validity is
      false; otherwise sign-up in sign-up mode and sign-in in sign-in mode. */
  function Submit(f: Form, outcome: Outcome<Json>): (r: AuthStep)
    ensures !f.validForm ==> r == AuthStep(f, [])
    ensures f.validForm && f.newUser ==> r == SignUp(f, outcome)
    ensures f.validForm && !f.newUser ==> r == SignIn(f, outcome)
  {
    if !f.validForm then AuthStep(f, [])
    else if f.newUser then SignUp(f, outcome)
    else SignIn(f, outcome)
  }

  /** The stored validity agrees with the rules of the current mode. */
  predicate Consistent(f: Form)
  {
    f.validForm == Validity(f)
  }

  /** The mode switch as evidently intended: the validation effect also depends on
      `newUser`, so the validity is recomputed for the new mode. */
  function ToggleModeRevalidated(f: Form): (r: Form)
    ensures r.newUser == !f.newUser && SameFields(r, f)
    ensures Consistent(r)
  {
    var after := f.(newUser := !f.newUser);
    after.(validForm := Validity(after))
  }

  /** As written, switching to sign-up mode right after filling in valid sign-in fields
      leaves the button enabled, and submitting posts a sign-up whose name is empty and
      whose confirmation does not match. */
  lemma StaleValidityPostsInvalidSignUp()
    ensures var f := ToggleMode(SetField(SetField(Initial(), Email, "a@b"), Password, "123456"));
            && f.newUser && f.validForm
            && !SignUpValid(f.name, f.email, f.password, f.confirmPassword)
            && RequestsOf(Submit(f, Ok(JNull)).effects) == [PostSignup("", "a@b", "123456", "")]
  {
    var f1 := SetField(Initial(), Email, "a@b");
    var f2 := SetField(f1, Password, "123456");
    Utf16LengthOfBmp("123456");
    assert '@' in "a@b" by { assert "a@b"[1] == '@'; }
    assert Validity(f2) by { ValidityMeansRules(f2); }
  }

  /** The events the screen reacts to, with the mode switch as intended. */
  datatype Event = Typed(field: Field, value: string) | ModeSwitched | Submitted(outcome: Outcome<Json>)

  function Apply(f: Form, e: Event): (r: AuthStep)
    ensures Consistent(f) ==> Consistent(r.form)
  {
    match e
    case Typed(field, value) => AuthStep(SetField(f, field, value), [])
    case ModeSwitched => AuthStep(ToggleModeRevalidated(f), [])
    case Submitted(outcome) =>
      ValidityMeansRules(Form([], [], [], [], false, f.validForm));
      Submit(f, outcome)
  }

  /** With the intended mode switch, a request leaves only with data valid for its mode:
      a sign-up request carries fields passing the sign-up rules, a sign-in request
      credentials passing the sign-in rules. */
  lemma IntendedSubmitSendsOnlyValidData(f: Form, outcome: Outcome<Json>)
    requires Consistent(f)
    ensures forall q :: q in RequestsOf(Submit(f, outcome).effects) ==>
              match q
              case PostSignup(n, e, p, c) => SignUpValid(n, e, p, c)
              case PostSignin(e, p) => SignInValid(e, p)
              case _ => false
  {
    ValidityMeansRules(f);
  }
}

=== FILE: auth_or_app.dfy ===
/** The start-up gate: read the stored session once and route either to the task screens
    (after installing the bearer token) or to the auth screen. */
module AuthOrApp {
  import opened Wrappers
  import opened JsValues
  import opened Effects

  /** A parsed session the gate accepts: a truthy value whose `token` is truthy. */
  predicate HasSession(v: Json)
  {
    Truthy(v) && TruthyOpt(Property(v, TokenField))
  }

  /** What `JSON.parse` yields for the stored session: a key never written reads as
      `null`, which parses to `null`; text that does not parse throws (None). */
  function ParsedSession(read: StorageRead): (p: Option<Json>)
    requires !read.ReadFailed?
    ensures read.NotFound? ==> p == Some(JNull)
    ensures read.Found? ==> p == Parse(read.blob)
  {
    if read.NotFound? then Some(JNull) else Parse(read.blob)
  }

  /** The gate's decision: where it navigates (None when the storage read itself failed:
      that rejection escapes the handler and the spinner stays), the `Authorization`
      header it installs, and whether it logged a parse failure. */
  datatype Decision = Decision(route: Option<Route>, header: Option<string>, warned: bool)

  /** `controlLogin`. */
  function ControlLogin(read: StorageRead): (d: Decision)
    ensures d.route.None? <==> read.ReadFailed?
    ensures d.warned <==> read == Found(Unparseable)
    ensures read.Found? && read.blob.Encoded? && HasSession(read.blob.value) ==>
              && d.route == Some(ToHome(read.blob.value))
              && d.header == Some(Bearer(Property(read.blob.value, TokenField)))
    ensures d.route.Some? && d.route.value.ToHome? ==>
              read.Found? && read.blob == Encoded(d.route.value.params) && HasSession(d.route.value.params)
    ensures d.header.Some? <==> d.route.Some? && d.route.value.ToHome?
    ensures !read.ReadFailed? && !(read.Found? && read.blob.Encoded? && HasSession(read.blob.value)) ==>
              d.route == Some(ToAuth) && d.header.None?
  {
    if read.ReadFailed? then Decision(None, None, false)
    else
      match ParsedSession(read)
      case None => Decision(Some(ToAuth), None, true)
      case Some(v) =>
        if Truthy(v) && TruthyOpt(Property(v, TokenField)) then
          Decision(Some(ToHome(v)), Some(Bearer(Property(v, TokenField))), false)
        else
          Decision(Some(ToAuth), None, false)
  }

  /** The decision as effects, in the order the gate performs them. */
  function DecisionEffects(d: Decision): (es: seq<Effect>)
    ensures d.route.Some? ==> |es| > 0 && es[|es| - 1] == Navigate(d.route.value)
    ensures d.header.Some? ==> SetAuthHeader(d.header.value) in es
    ensures Warn in es <==> d.warned
    ensures forall v :: SetAuthHeader(v) in es <==> d.header == Some(v)
    ensures |es| == (if d.warned then 1 else 0) + (if d.header.Some? then 1 else 0) + (if d.route.Some? then 1 else 0)
  {
    var warn := if d.warned then [Warn] else [];
    var header := if d.header.Some? then [SetAuthHeader(d.header.value)] else [];
    var nav := if d.route.Some? then [Navigate(d.route.value)] else [];
    assert Warn !in header + nav;
    (warn + header) + nav
  }

  /** The four routes to the auth screen: no stored session, text that does not parse,
      a parsed value that is falsy, and one whose token is missing or falsy. */
  lemma NoSessionRoutesToAuth(v: Json)
    ensures ControlLogin(NotFound).route == Some(ToAuth)
    ensures ControlLogin(Found(Unparseable)).route == Some(ToAuth)
    ensures !Truthy(v) ==> ControlLogin(Found(Encoded(v))).route == Some(ToAuth)
    ensures !TruthyOpt(Property(v, TokenField)) ==> ControlLogin(Found(Encoded(v))).route == Some(ToAuth)
    ensures ControlLogin(Found(Encoded(JObj(map[])))).header.None?
  {
  }
}

=== FILE: common.dfy ===
/** The helpers every screen shares: the server address and the two alert shapes. */
module Common {
  import opened JsValues
  import opened Effects

  const IosServer: string := "http://localhost:3000"
  /** The Android emulator's alias for the host machine's loopback interface. */
  const EmulatorServer: string := "http://10.0.2.2:3000"

  const ErrorTitle: string := "Erro!"
  const SuccessTitle: string := "Sucesso!"

  /** The server base URL for the platform reported by `Platform.OS`. */
  function Server(os: string): (url: string)
    ensures os == "ios" ==> url == IosServer
    ensures os != "ios" ==> url == EmulatorServer
  {
    if os == "ios" then IosServer else EmulatorServer
  }

  /** Whether a thrown value carries a server response whose body is truthy. */
  predicate HasResponseData(err: JsError)
  {
    err.RequestError? && err.response.Some? && Truthy(err.response.value.data)
  }

  /** The message `showError` displays: the response body when the error has a response
      with a truthy body, otherwise the thrown value itself. */
  function ErrorMessage(err: JsError): (m: AlertBody)
    ensures m.Value? <==> HasResponseData(err)
    ensures m.Value? ==> m.value == err.response.value.data && Truthy(m.value)
    ensures !m.Value? ==> m == Thrown(err)
  {
    if HasResponseData(err) then Value(err.response.value.data) else Thrown(err)
  }

  /** `showError(err)`: an alert titled "Erro!" carrying the chosen message. */
  function ShowError(err: JsError): (e: Effect)
    ensures e.Alert? && e.title == ErrorTitle
    ensures e.body == ErrorMessage(err)
  {
    Alert(ErrorTitle, ErrorMessage(err))
  }

  /** `showSuccess(msg)`: an alert titled "Sucesso!" carrying `msg` unchanged. */
  function ShowSuccess(msg: string): (e: Effect)
    ensures e.Alert? && e.title == SuccessTitle && e.body == Text(msg)
  {
    Alert(SuccessTitle, Text(msg))
  }

  /** An error alert and a success alert are never confused, and different errors are
      reported differently unless both show the same response body. */
  lemma ErrorAlertsAreDistinct(err: JsError, other: JsError, msg: string)
    ensures ShowError(err) != ShowSuccess(msg)
    ensures ShowError(err) == ShowError(other) ==>
              err == other || (HasResponseData(err) && HasResponseData(other))
  {
  }
}

=== FILE: dates.dfy ===
/** Points in time as abstract calendar-day numbers plus a second of the day. Calendar
    arithmetic (months, time zones, daylight saving) is not modelled: adding days moves
    the day number and keeps the time of day, as `moment().add({ days })` does. */
module Dates {

  const SecondsPerDay: int := 86400

  /** A local date and time: `day` counts calendar days from an arbitrary origin. */
  datatype DateTime = DateTime(day: int, second: int)

  /** A well-formed date and time: the second lies within its day. */
  type Instant = d: DateTime | 0 <= d.second < SecondsPerDay witness DateTime(0, 0)

  /** The second of the day at which the clock reads `h:m:s`. */
  function ClockTime(h: nat, m: nat, s: nat): (r: int)
    requires h < 24 && m < 60 && s < 60
    ensures 0 <= r < SecondsPerDay
  {
    3600 * h + 60 * m + s
  }

  /** The instant `n` days after `t` (before it when `n` is negative), same time of day. */
  function AddDays(t: Instant, n: int): (r: Instant)
    ensures r.day - t.day == n
    ensures r.second == t.second
  {
    DateTime(t.day + n, t.second)
  }

  /** Strict chronological order. */
  predicate Before(a: Instant, b: Instant)
  {
    a.day < b.day || (a.day == b.day && a.second < b.second)
  }
}

=== FILE: effects.dfy ===
/** The boundary of the model. Everything the screens ask a foreign service to do (the
    HTTP client, persistent key/value storage, alerts, navigation, the console) is
    recorded as an `Effect` in a log, and everything such a service answers comes in as
    a parameter: an `Outcome` for an HTTP call, a `StorageRead` for a storage lookup. */
module Effects {
  import opened Wrappers
  import opened JsValues
  import opened Dates
  import opened Tasks

  /** Stored text, represented by what `JSON.parse` makes of it: every text either parses
      to exactly one value or throws. The characters of the text are not modelled. */
  datatype Blob = Encoded(value: Json) | Unparseable

  /** `JSON.stringify(v)`. */
  function Stringify(v: Json): Blob
  {
    Encoded(v)
  }

  /** `JSON.parse(text)`: the value, or None when it throws a SyntaxError. */
  function Parse(b: Blob): (r: Option<Json>)
    ensures r.None? <==> b.Unparseable?
  {
    match b
    case Encoded(v) => Some(v)
    case Unparseable => None
  }

  /** Reading back what was written yields the value written. */
  lemma ParseStringify(v: Json)
    ensures Parse(Stringify(v)) == Some(v)
  {
  }

  /** The storage key of the "show done tasks" preference. */
  const PreferenceKey: string := "showDoneTasks"

  /** The storage key of the signed-in user's session: the sign-in response body. */
  const UserDataKey: string := "userData"

  /** The property of the session holding the bearer token. */
  const TokenField: string := "token"

  /** The `Authorization` header value built from a token: `` `bearer ${token}` ``. */
  function Bearer(token: Option<Json>): string
  {
    "bearer " + OptToJsString(token)
  }

  /** What `AsyncStorage.getItem(key)` settles to: the stored text, `null` for a key never
      written, or a rejected promise. */
  datatype StorageRead = Found(blob: Blob) | NotFound | ReadFailed

  /** An HTTP response that arrived: status code and parsed body. */
  datatype HttpResponse = HttpResponse(status: int, data: Json)

  /** A thrown value caught by the screens: an axios error, which carries `response`
      when the server answered, or the TypeError raised by reading a property of `null`. */
  datatype JsError = RequestError(response: Option<HttpResponse>) | TypeError

  /** How an awaited call settled: resolved with `data` or rejected with `error`. */
  datatype Outcome<T> = Ok(data: T) | Err(error: JsError)

  /** The HTTP calls the screens issue, relative to the configured server. */
  datatype HttpRequest =
    | GetTasks(maxDate: Instant)                       // GET /tasks?date=<maxDate>
    | PostTask(description: string, estimatedDate: Instant) // POST /tasks
    | PutToggle(taskId: TaskId)                        // PUT /tasks/<id>/toggle
    | DeleteById(taskId: TaskId)                       // DELETE /tasks/<id>
    | PostSignin(email: string, password: string)      // POST /signin
    | PostSignup(name: string, email: string, password: string, confirmPassword: string) // POST /signup

  /** Navigation targets: the task screens with their parameters, or the auth screen. */
  datatype Route = ToHome(params: Json) | ToAuth

  /** The message argument of `Alert.alert`: a literal text, a response body, or a thrown
      value shown as it is. */
  datatype AlertBody = Text(text: string) | Value(value: Json) | Thrown(error: JsError)

  datatype Effect =
    | Request(req: HttpRequest)                        // an HTTP call was issued
    | Reload                                           // `loadTasks()` was started again
    | Alert(title: string, body: AlertBody)            // `Alert.alert(title, body)`
    | Persist(key: string, blob: Blob)                 // `AsyncStorage.setItem(key, text)`
    | SetAuthHeader(value: string)                     // axios default `Authorization` header
    | Navigate(route: Route)                           // `navigation.navigate(route)`
    | ResetTo(route: Route)                            // navigation stack reset to one route
    | Warn                                             // `console.warn(error)`

  /** The HTTP call an effect issues, if any. */
  function RequestOf(e: Effect): seq<HttpRequest>
  {
    if e.Request? then [e.req] else []
  }

  /** The alert an effect shows, if any. */
  function AlertOf(e: Effect): seq<Effect>
  {
    if e.Alert? then [e] else []
  }

  /** The HTTP calls in a log, in the order issued. */
  function RequestsOf(es: seq<Effect>): (r: seq<HttpRequest>)
    ensures |r| <= |es|
  {
    if es == [] then [] else RequestOf(es[0]) + RequestsOf(es[1..])
  }

  /** The alerts in a log, in the order shown. */
  function AlertsOf(es: seq<Effect>): (r: seq<Effect>)
    ensures |r| <= |es|
  {
    if es == [] then [] else AlertOf(es[0]) + AlertsOf(es[1..])
  }

  /** How many times a log restarts the task fetch. */
  function ReloadCount(es: seq<Effect>): (n: nat)
    ensures n == 0 <==> Reload !in es
    ensures n <= |es|
  {
    if es == [] then 0 else (if es[0].Reload? then 1 else 0) + ReloadCount(es[1..])
  }

  /** A log read from its first effect on. */
  lemma ViewsOfCons(e: Effect, es: seq<Effect>)
    ensures RequestsOf([e] + es) == RequestOf(e) + RequestsOf(es)
    ensures AlertsOf([e] + es) == AlertOf(e) + AlertsOf(es)
    ensures ReloadCount([e] + es) == (if e.Reload? then 1 else 0) + ReloadCount(es)
  {
    assert ([e] + es)[0] == e;
    assert ([e] + es)[1..] == es;
  }

  /** The views of logs of one, two and three effects, spelled out. */
  lemma ViewsOfSingleton(a: Effect)
    ensures RequestsOf([a]) == RequestOf(a) && AlertsOf([a]) == AlertOf(a)
    ensures ReloadCount([a]) == (if a.Reload? then 1 else 0)
  {
    ViewsOfCons(a, []);
    assert [a] + [] == [a];
  }

  lemma ViewsOfPair(a: Effect, b: Effect)
    ensures RequestsOf([a, b]) == RequestOf(a) + RequestOf(b)
    ensures AlertsOf([a, b]) == AlertOf(a) + AlertOf(b)
    ensures ReloadCount([a, b]) == (if a.Reload? then 1 else 0) + (if b.Reload? then 1 else 0)
  {
    ViewsOfSingleton(b);
    ViewsOfCons(a, [b]);
    assert [a] + [b] == [a, b];
  }

  lemma ViewsOfTriple(a: Effect, b: Effect, c: Effect)
    ensures RequestsOf([a, b, c]) == RequestOf(a) + (RequestOf(b) + RequestOf(c))
    ensures AlertsOf([a, b, c]) == AlertOf(a) + (AlertOf(b) + AlertOf(c))
    ensures ReloadCount([a, b, c]) == (if a.Reload? then 1 else 0) + ReloadCount([b, c])
  {
    ViewsOfPair(b, c);
    ViewsOfCons(a, [b, c]);
    assert [a] + [b, c] == [a, b, c];
  }

  /** The views of a log distribute over concatenation. */
  lemma {:induction false} RequestsOfConcat(a: seq<Effect>, b: seq<Effect>)
    ensures RequestsOf(a + b) == RequestsOf(a) + RequestsOf(b)
  {
    if a == [] {
      assert a + b == b;
    } else {
      var head := RequestOf(a[0]);
      assert (a + b)[0] == a[0];
      assert (a + b)[1..] == a[1..] + b;
      calc {
        RequestsOf(a + b);
        head + RequestsOf(a[1..] + b);
        { RequestsOfConcat(a[1..], b); }
        head + (RequestsOf(a[1..]) + RequestsOf(b));
        (head + RequestsOf(a[1..])) + RequestsOf(b);
      }
    }
  }

  lemma {:induction false} AlertsOfConcat(a: seq<Effect>, b: seq<Effect>)
    ensures AlertsOf(a + b) == AlertsOf(a) + AlertsOf(b)
  {
    if a == [] {
      assert a + b == b;
    } else {
      var head := AlertOf(a[0]);
      assert (a + b)[0] == a[0];
      assert (a + b)[1..] == a[1..] + b;
      calc {
        AlertsOf(a + b);
        head + AlertsOf(a[1..] + b);
        { AlertsOfConcat(a[1..], b); }
        head + (AlertsOf(a[1..]) + AlertsOf(b));
        (head + AlertsOf(a[1..])) + AlertsOf(b);
      }
    }
  }

  lemma {:induction false} ReloadCountConcat(a: seq<Effect>, b: seq<Effect>)
    ensures ReloadCount(a + b) == ReloadCount(a) + ReloadCount(b)
  {
    if a == [] {
      assert a + b == b;
    } else {
      ReloadCountConcat(a[1..], b);
      assert (a + b)[0] == a[0];
      assert (a + b)[1..] == a[1..] + b;
    }
  }
}

=== FILE: flows.dfy ===
/** Properties that span several components: the add-task modal feeding the list screen,
    a row's gestures reaching the list's operations, the sign-in screen's stored session
    read back by the start-up gate, and the end-to-end scenarios of the list screen. */
module Flows {
  import opened Wrappers
  import opened JsValues
  import opened JsStrings
  import opened Dates
  import opened Tasks
  import opened TaskFilter
  import opened Effects
  import TaskList
  import AddTask
  import Auth
  import AuthOrApp

  /** Saving from the modal: the list screen receives the text as typed and the chosen
      date, the modal's form is reset whatever the list does with the task, and the list
      posts it and closes the modal exactly when the text is not blank. */
  lemma SaveThroughModal(s: TaskList.State, f: AddTask.Form, now: Instant, posted: Outcome<()>)
    ensures var saved := AddTask.Save(f, now);
            var r := TaskList.AddTask(s, saved.handed, posted);
            && saved.form == AddTask.Initial(now)
            && (Trim(f.description) != [] <==> RequestsOf(r.effects) == [PostTask(f.description, f.date)])
            && (Trim(f.description) != [] ==> !r.state.modalOpen)
            && (Trim(f.description) == [] ==> r.state.modalOpen == s.modalOpen && RequestsOf(r.effects) == [])
  {
  }

  /** A blank description keeps the modal open, yet the modal's form has already been
      emptied, so the rejected text is gone. */
  lemma BlankSaveLeavesEmptyOpenModal(s: TaskList.State, f: AddTask.Form, now: Instant, posted: Outcome<()>)
    requires s.modalOpen && AllWhitespace(f.description)
    ensures var saved := AddTask.Save(f, now);
            && TaskList.AddTask(s, saved.handed, posted).state.modalOpen
            && saved.form.description == []
  {
    TrimEmptyIffBlank(f.description);
  }

  /** Dismissing the modal closes it on the list screen and keeps the draft for the next
      time it opens. */
  lemma CancelThroughModal(s: TaskList.State, daysAhead: int, f: AddTask.Form, path: AddTask.CancelPath)
    ensures var d := AddTask.Cancel(f, path);
            && d.OnCancelCalled?
            && !TaskList.Dispatch(s, daysAhead, TaskList.ModalCancelled).state.modalOpen
            && d.form == f
  {
  }

  /** The list's wiring of a row's callbacks: `toggleTaskStatus` and `onDelete={deleteTask}`. */
  function RowEvent(c: Callback, outcome: Outcome<()>): (e: TaskList.Event)
    ensures c.ToggleTaskStatus? ==> e == TaskList.CheckRequested(c.taskId, outcome)
    ensures c.OnDelete? ==> e == TaskList.DeleteRequested(c.taskId, outcome)
  {
    match c
    case ToggleTaskStatus(id) => TaskList.CheckRequested(id, outcome)
    case OnDelete(id) => TaskList.DeleteRequested(id, outcome)
  }

  /** A gesture on a row reaches the server about that row's task: a check press toggles
      it, the right action and the left swipe delete it. */
  lemma GestureTargetsItsRow(s: TaskList.State, daysAhead: int, t: Task, g: Gesture, outcome: Outcome<()>)
    ensures var r := TaskList.Dispatch(s, daysAhead, RowEvent(RowCallback(t, g), outcome));
            RequestsOf(r.effects) == [if g == CheckPressed then PutToggle(t.id) else DeleteById(t.id)]
  {
  }

  /** A row drawn as done is exactly one the list hides when done tasks are not shown. */
  lemma DoneRowsAreTheHiddenOnes(tasks: seq<Task>, t: Task)
    requires t in tasks
    ensures CheckViewOf(t) == CheckMark <==> t !in FilterTasks(tasks, false)
  {
  }

  /** The session a successful sign-in stores is accepted by the gate at the next start:
      it routes to the task screens with the same data and installs the same header. */
  lemma SignInSessionPassesGate(f: Auth.Form, data: Json)
    requires AuthOrApp.HasSession(data)
    ensures var r := Auth.SignIn(f, Ok(data));
            var d := AuthOrApp.ControlLogin(Found(r.effects[1].blob));
            && r.effects[1] == Persist(UserDataKey, Stringify(data))
            && d.route == Some(ToHome(data))
            && d.header == Some(Bearer(Property(data, TokenField)))
            && r.effects[2] == SetAuthHeader(d.header.value)
  {
    var r := Auth.SignIn(f, Ok(data));
    ParseStringify(data);
    assert r.effects[1..] == Auth.SignedInEffects(data);
    assert r.effects[1] == r.effects[1..][0];
    assert r.effects[2] == r.effects[1..][1];
  }

  /** In particular a non-empty string token comes back as "bearer " followed by it. */
  lemma StringTokenRoundTrip(f: Auth.Form, fields: map<string, Json>, token: string)
    requires TokenField in fields && fields[TokenField] == JStr(token) && token != []
    ensures var data := JObj(fields);
            var r := Auth.SignIn(f, Ok(data));
            AuthOrApp.ControlLogin(Found(r.effects[1].blob)).header == Some("bearer " + token)
  {
    SignInSessionPassesGate(f, JObj(fields));
  }

  /** Two tasks fetched, one done: both are listed while done tasks are shown, and only
      the pending one after the eye is pressed. */
  lemma ShowThenHideDone(daysAhead: int, now: Instant, due: Instant, done: Instant)
    ensures var milk := Task(1, "Buy milk", due, None);
            var rent := Task(2, "Pay rent", due, Some(done));
            var loaded := TaskList.Run(TaskList.Initial(), daysAhead, [TaskList.Fetched(now, Ok([milk, rent]))]);
            var hidden := TaskList.Run(loaded.state, daysAhead, [TaskList.EyePressed]);
            && loaded.state.visible == [milk, rent]
            && hidden.state.visible == [milk]
  {
    var milk := Task(1, "Buy milk", due, None);
    var rent := Task(2, "Pay rent", due, Some(done));
    assert [milk, rent][1..] == [rent];
    assert Pending([rent]) == [] by { assert [rent][1..] == []; }
  }

  /** After a successful delete and the fetch it triggers, the deleted task is not shown
      when the server no longer returns it, whichever the preference. */
  lemma DeleteThenReloadHidesTask(s: TaskList.State, id: TaskId, now: Instant, daysAhead: int, latest: seq<Task>)
    requires forall t :: t in latest ==> t.id != id
    ensures var r := TaskList.ThenReload(TaskList.DeleteTask(s, id, Ok(())), now, daysAhead, Ok(latest));
            && r.state.tasks == latest
            && forall t :: t in r.state.visible ==> t.id != id
  {
  }

  /** A failed toggle changes nothing the user sees: the list is as it was, no alert is
      shown and no fetch follows. */
  lemma FailedToggleIsInvisible(s: TaskList.State, id: TaskId, e: JsError, now: Instant, daysAhead: int, latest: Outcome<seq<Task>>)
    ensures var r := TaskList.ThenReload(TaskList.ToggleTaskStatus(s, id, Err(e)), now, daysAhead, latest);
            && r.state == s
            && AlertsOf(r.effects) == []
            && RequestsOf(r.effects) == [PutToggle(id)]
  {
  }
}

=== FILE: js_strings.dfy ===
/** The JavaScript string operations the source relies on: `String.prototype.trim`,
    the UTF-16 `length` of a string, and the decimal rendering of an integer. */
module JsStrings {

  /** ECMAScript WhiteSpace and LineTerminator code points, the characters `trim` removes. */
  predicate IsWhitespace(c: char)
  {
    var u := c as int;
    || 0x09 <= u <= 0x0D          // tab, line feed, vertical tab, form feed, carriage return
    || u == 0x20 || u == 0xA0 || u == 0x1680
    || 0x2000 <= u <= 0x200A
    || u == 0x2028 || u == 0x2029 // line and paragraph separators
    || u == 0x202F || u == 0x205F || u == 0x3000
    || u == 0xFEFF                // byte order mark
  }

  /** True when every character of `s` is whitespace (vacuously so for the empty string). */
  ghost predicate AllWhitespace(s: string)
  {
    forall i :: 0 <= i < |s| ==> IsWhitespace(s[i])
  }

  /** Drops the leading whitespace of `s`. */
  function TrimStart(s: string): (r: string)
    ensures |r| <= |s| && r == s[|s| - |r|..]
    ensures AllWhitespace(s[..|s| - |r|])
    ensures r == [] || !IsWhitespace(r[0])
    decreases |s|
  {
    if |s| > 0 && IsWhitespace(s[0]) then TrimStart(s[1..]) else s
  }

  /** Drops the trailing whitespace of `s`. */
  function TrimEnd(s: string): (r: string)
    ensures |r| <= |s| && r == s[..|r|]
    ensures AllWhitespace(s[|r|..])
    ensures r == [] || !IsWhitespace(r[|r| - 1])
    decreases |s|
  {
    if |s| > 0 && IsWhitespace(s[|s| - 1]) then
      var r := TrimEnd(s[..|s| - 1]);
      assert s[|r|..] == s[..|s| - 1][|r|..] + [s[|s| - 1]];
      r
    else
      s
  }

  /** `s.trim()`: the contiguous middle of `s` left once whitespace is removed from both ends. */
  function Trim(s: string): (r: string)
  {
    TrimEnd(TrimStart(s))
  }

  /** `s.trim()` is the slice `s[i..j]` of its input whose ends are not whitespace and
      whose removed prefix `s[..i]` and suffix `s[j..]` are all whitespace. */
  lemma TrimIsCore(s: string) returns (i: nat, j: nat)
    ensures i <= j <= |s| && Trim(s) == s[i..j]
    ensures AllWhitespace(s[..i]) && AllWhitespace(s[j..])
    ensures Trim(s) == [] || (!IsWhitespace(Trim(s)[0]) && !IsWhitespace(Trim(s)[|Trim(s)| - 1]))
  {
    var t := TrimStart(s);
    var r := TrimEnd(t);
    assert Trim(s) == r;
    i := |s| - |t|;
    j := i + |r|;
    assert AllWhitespace(s[..i]);
    TrimSlices(s, t, r);
    assert r == [] || !IsWhitespace(r[|r| - 1]);
    assert t == [] || !IsWhitespace(t[0]);
    if r != [] {
      assert r[0] == t[0];
    }
  }

  /** The two trims as slices of the original string. */
  lemma TrimSlices(s: string, t: string, r: string)
    requires |t| <= |s| && t == s[|s| - |t|..]
    requires |r| <= |t| && r == t[..|r|] && AllWhitespace(t[|r|..])
    ensures r == s[|s| - |t|..|s| - |t| + |r|]
    ensures AllWhitespace(s[|s| - |t| + |r|..])
  {
    var i := |s| - |t|;
    assert t[|r|..] == s[i + |r|..];
  }

  /** The source's blank test `!s.trim()`: trimming yields the empty string exactly when
      every character is whitespace. */
  lemma TrimEmptyIffBlank(s: string)
    ensures Trim(s) == [] <==> AllWhitespace(s)
  {
    var t := TrimStart(s);
    if t == [] {
      assert s[..|s|] == s;
    } else {
      assert t[0..] == t;
      assert s[|s| - |t|] == t[0];
    }
  }

  /** Number of UTF-16 code units needed for `c`: JavaScript strings are UTF-16, so a
      code point above U+FFFF counts twice in `length`. */
  function CodeUnits(c: char): (n: nat)
    ensures 1 <= n <= 2
    ensures n == 2 <==> c as int > 0xFFFF
  {
    if c as int > 0xFFFF then 2 else 1
  }

  /** `s.length` in JavaScript: the number of UTF-16 code units of `s`. */
  function Utf16Length(s: string): (n: nat)
    ensures |s| <= n <= 2 * |s|
    ensures n == 0 <==> s == []
  {
    if s == [] then 0 else CodeUnits(s[0]) + Utf16Length(s[1..])
  }

  /** For text made only of Basic Multilingual Plane characters, `length` is the
      character count. */
  lemma {:induction false} Utf16LengthOfBmp(s: string)
    requires forall i :: 0 <= i < |s| ==> s[i] as int <= 0xFFFF
    ensures Utf16Length(s) == |s|
  {
    if s != [] {
      Utf16LengthOfBmp(s[1..]);
    }
  }

  function DigitChar(d: nat): (c: char)
    requires d < 10
    ensures '0' <= c <= '9' && (c as int) - ('0' as int) == d
  {
    "0123456789"[d]
  }

  /** The decimal numeral of a natural number, as `String(n)` writes it. */
  function NatToDecimal(n: nat): (r: string)
    ensures |r| >= 1
    ensures forall i :: 0 <= i < |r| ==> '0' <= r[i] <= '9'
    ensures r[0] == '0' ==> n == 0
  {
    if n < 10 then [DigitChar(n)] else NatToDecimal(n / 10) + [DigitChar(n % 10)]
  }

  /** The value a string of decimal digits denotes. */
  function DecimalValue(s: string): int
    requires forall i :: 0 <= i < |s| ==> '0' <= s[i] <= '9'
  {
    if s == [] then 0 else 10 * DecimalValue(s[..|s| - 1]) + ((s[|s| - 1] as int) - ('0' as int))
  }

  /** Reading the numeral back gives the number it was written from. */
  lemma {:induction false} NatToDecimalRoundTrip(n: nat)
    ensures DecimalValue(NatToDecimal(n)) == n
  {
    if n >= 10 {
      NatToDecimalRoundTrip(n / 10);
      var r := NatToDecimal(n);
      assert r[..|r| - 1] == NatToDecimal(n / 10);
    }
  }

  /** `String(n)` for an integer: a minus sign before the numeral of the magnitude. */
  function IntToDecimal(n: int): (r: string)
    ensures n >= 0 ==> r == NatToDecimal(n)
    ensures n < 0 ==> r == "-" + NatToDecimal(-n)
  {
    if n < 0 then "-" + NatToDecimal(-n) else NatToDecimal(n)
  }
}

=== FILE: js_values.dfy ===
/** JSON-shaped JavaScript values as they come out of `JSON.parse` or an HTTP response
    body, with the three operations the source applies to them: truthiness (`if (v)`,
    `a && b`), reading a named property (`v.token`) and string conversion in a template
    literal (`` `bearer ${v}` ``). */
module JsValues {
  import opened Wrappers
  import JsStrings

  /** A JSON value. Numbers are modelled by integers; fractional numbers are not. An object
      maps each key to its value (a duplicate key in the text keeps its last value, as
      `JSON.parse` does, so a map loses nothing). */
  datatype Json =
    | JNull
    | JBool(b: bool)
    | JNum(n: int)
    | JStr(s: string)
    | JArr(items: seq<Json>)
    | JObj(fields: map<string, Json>)

  /** JavaScript truthiness of a JSON value: `null`, `false`, `0` and `""` are falsy,
      everything else (every array and object, even empty ones) is truthy. */
  predicate Truthy(v: Json)
  {
    match v
    case JNull => false
    case JBool(b) => b
    case JNum(n) => n != 0
    case JStr(s) => s != ""
    case JArr(_) => true
    case JObj(_) => true
  }

  /** Truthiness of a property read, where `None` is `undefined` (falsy). */
  predicate TruthyOpt(v: Option<Json>)
  {
    v.Some? && Truthy(v.value)
  }

  /** `v[key]` for a key that no JSON value inherits (such as "token" or "showDoneTasks"):
      the object's own field, or `undefined` (None) for a missing field and for every
      non-object value. The source reads properties only after a truthiness test, so the
      TypeError that reading from `null` raises is handled by the callers. */
  function Property(v: Json, key: string): (r: Option<Json>)
    ensures r.Some? <==> v.JObj? && key in v.fields
    ensures r.Some? ==> r.value == v.fields[key]
  {
    if v.JObj? && key in v.fields then Some(v.fields[key]) else None
  }

  /** `String(v)`, the conversion a template literal applies: strings are themselves,
      `null` is "null", booleans are "true"/"false", integers are their decimal numeral,
      an array is its elements' strings joined with "," (with `null` elements empty) and
      an object is "[object Object]". */
  function ToJsString(v: Json): string
    decreases v
  {
    match v
    case JNull => "null"
    case JBool(b) => if b then "true" else "false"
    case JNum(n) => JsStrings.IntToDecimal(n)
    case JStr(s) => s
    case JArr(items) =>
      Join(seq(|items|, i requires 0 <= i < |items| =>
                 if items[i].JNull? then "" else ToJsString(items[i])), ",")
    case JObj(_) => "[object Object]"
  }

  /** `String(x)` for a property read: `undefined` becomes "undefined". */
  function OptToJsString(v: Option<Json>): string
  {
    match v
    case None => "undefined"
    case Some(x) => ToJsString(x)
  }

  /** `parts.join(sep)`. */
  function Join(parts: seq<string>, sep: string): (r: string)
    ensures |parts| == 1 ==> r == parts[0]
    ensures parts == [] ==> r == ""
  {
    if parts == [] then ""
    else if |parts| == 1 then parts[0]
    else parts[0] + sep + Join(parts[1..], sep)
  }
}

=== FILE: task_filter.dfy ===
/** The visibility filter of the task list: with "show done tasks" on, the whole
    collection in fetch order; with it off, the pending tasks in fetch order. */
module TaskFilter {
  import opened Tasks

  /** `tasks.filter(task => !task.doneAt)`. */
  function Pending(tasks: seq<Task>): (r: seq<Task>)
    ensures |r| <= |tasks|
    ensures forall i :: 0 <= i < |r| ==> !IsDone(r[i])
    ensures forall t :: t in r <==> t in tasks && !IsDone(t)
  {
    if tasks == [] then []
    else (if IsDone(tasks[0]) then [] else [tasks[0]]) + Pending(tasks[1..])
  }

  /** The list the screen renders for `tasks` under the `showDoneTasks` flag. */
  function FilterTasks(tasks: seq<Task>, showDone: bool): (r: seq<Task>)
    ensures showDone ==> r == tasks
    ensures !showDone ==> r == Pending(tasks)
    ensures !showDone ==> forall i :: 0 <= i < |r| ==> !IsDone(r[i])
    ensures !showDone ==> forall t :: t in tasks && !IsDone(t) ==> t in r
    ensures forall t :: t in r ==> t in tasks
  {
    if showDone then tasks else Pending(tasks)
  }

  /** `idx` lists, in strictly increasing order, positions of `b` whose elements are
      exactly the elements of `a`: `a` is `b` with the other positions left out. */
  ghost predicate SelectedAt(a: seq<Task>, b: seq<Task>, idx: seq<int>)
  {
    && |idx| == |a|
    && (forall k :: 0 <= k < |idx| ==> 0 <= idx[k] < |b| && a[k] == b[idx[k]])
    && (forall k, l :: 0 <= k < l < |idx| ==> idx[k] < idx[l])
  }

  /** `idx` holds exactly the positions of the pending tasks of `tasks`. */
  ghost predicate CoversPending(tasks: seq<Task>, idx: seq<int>)
  {
    forall i :: 0 <= i < |tasks| ==> (i in idx <==> !IsDone(tasks[i]))
  }

  /** Every position moved one place later. */
  function Shift(idx: seq<int>, d: int): (r: seq<int>)
    ensures |r| == |idx|
    ensures forall k :: 0 <= k < |r| ==> r[k] == idx[k] + d
  {
    seq(|idx|, k requires 0 <= k < |idx| => idx[k] + d)
  }

  /** Membership in a shifted position list. */
  lemma ShiftMembership(idx: seq<int>, d: int, i: int)
    ensures i in Shift(idx, d) <==> (i - d) in idx
  {
    var sh := Shift(idx, d);
    if i in sh {
      var k :| 0 <= k < |sh| && sh[k] == i;
      assert idx[k] == i - d;
    }
    if (i - d) in idx {
      var k :| 0 <= k < |idx| && idx[k] == i - d;
      assert sh[k] == i;
    }
  }

  /** The positions of the pending tasks, in increasing order. */
  ghost function PendingPositions(tasks: seq<Task>): seq<int>
  {
    if tasks == [] then []
    else (if IsDone(tasks[0]) then [] else [0]) + Shift(PendingPositions(tasks[1..]), 1)
  }

  /** A selection from `tail` is a selection from `tail` with one task put in front, at
      positions one later. */
  lemma SelectAfterHead(t0: Task, tail: seq<Task>, p: seq<Task>, rest: seq<int>)
    requires SelectedAt(p, tail, rest)
    ensures SelectedAt(p, [t0] + tail, Shift(rest, 1))
  {
    var sh := Shift(rest, 1);
    var tasks := [t0] + tail;
    forall k | 0 <= k < |sh| ensures 0 <= sh[k] < |tasks| && p[k] == tasks[sh[k]] {
      assert tasks[sh[k]] == tail[rest[k]];
    }
  }

  /** ... and picking the new front task as well gives a selection of the longer list. */
  lemma SelectWithHead(t0: Task, tail: seq<Task>, p: seq<Task>, rest: seq<int>)
    requires SelectedAt(p, tail, rest)
    requires forall k :: 0 <= k < |rest| ==> 0 <= rest[k]
    ensures SelectedAt([t0] + p, [t0] + tail, [0] + Shift(rest, 1))
  {
    SelectAfterHead(t0, tail, p, rest);
    var sh := Shift(rest, 1);
    var idx := [0] + sh;
    var r := [t0] + p;
    var tasks := [t0] + tail;
    forall k | 0 <= k < |idx| ensures 0 <= idx[k] < |tasks| && r[k] == tasks[idx[k]] {
      if k > 0 {
        assert idx[k] == sh[k - 1] && r[k] == p[k - 1];
      }
    }
    forall k, l | 0 <= k < l < |idx| ensures idx[k] < idx[l] {
      assert idx[l] == sh[l - 1];
      if k > 0 {
        assert idx[k] == sh[k - 1];
      }
    }
  }

  lemma {:induction false} PendingPositionsSelect(tasks: seq<Task>)
    ensures SelectedAt(Pending(tasks), tasks, PendingPositions(tasks))
    ensures forall k :: 0 <= k < |PendingPositions(tasks)| ==> 0 <= PendingPositions(tasks)[k]
  {
    if tasks != [] {
      var tail := tasks[1..];
      PendingPositionsSelect(tail);
      assert tasks == [tasks[0]] + tail;
      if IsDone(tasks[0]) {
        SelectAfterHead(tasks[0], tail, Pending(tail), PendingPositions(tail));
      } else {
        SelectWithHead(tasks[0], tail, Pending(tail), PendingPositions(tail));
      }
    }
  }

  lemma {:induction false} PendingPositionsCover(tasks: seq<Task>)
    ensures CoversPending(tasks, PendingPositions(tasks))
  {
    if tasks != [] {
      PendingPositionsCover(tasks[1..]);
      var rest := PendingPositions(tasks[1..]);
      var head: seq<int> := if IsDone(tasks[0]) then [] else [0];
      var sh := Shift(rest, 1);
      assert PendingPositions(tasks) == head + sh;
      forall i | 0 <= i < |tasks| ensures i in head + sh <==> !IsDone(tasks[i]) {
        ShiftMembership(rest, 1, i);
        if i == 0 {
          PendingPositionsSelect(tasks[1..]);
          assert 0 !in sh;
        } else {
          assert tasks[1..][i - 1] == tasks[i];
        }
      }
    }
  }

  /** The pending tasks, in order, are one selection of positions covering exactly the
      pending ones. */
  lemma PendingIsASelection(tasks: seq<Task>)
    ensures exists idx :: SelectedAt(Pending(tasks), tasks, idx) && CoversPending(tasks, idx)
  {
    PendingPositionsSelect(tasks);
    PendingPositionsCover(tasks);
  }

  /** A selection covering the pending positions of a collection whose first task is
      done is a selection of the rest of the collection. */
  lemma DropDoneHead(tasks: seq<Task>, r: seq<Task>, idx: seq<int>)
    requires tasks != [] && IsDone(tasks[0])
    requires SelectedAt(r, tasks, idx) && CoversPending(tasks, idx)
    ensures SelectedAt(r, tasks[1..], Shift(idx, -1))
    ensures CoversPending(tasks[1..], Shift(idx, -1))
  {
    var tail := tasks[1..];
    var idx' := Shift(idx, -1);
    assert 0 !in idx;
    forall k | 0 <= k < |idx'| ensures 0 <= idx'[k] < |tail| && r[k] == tail[idx'[k]] {
      assert idx[k] in idx;
    }
    forall i | 0 <= i < |tail| ensures i in idx' <==> !IsDone(tail[i]) {
      ShiftMembership(idx, -1, i);
      assert tail[i] == tasks[i + 1];
    }
  }

  /** In a selection covering the pending positions, a pending first task is picked
      first. */
  lemma PendingHeadPickedFirst(tasks: seq<Task>, r: seq<Task>, idx: seq<int>)
    requires tasks != [] && !IsDone(tasks[0])
    requires SelectedAt(r, tasks, idx) && CoversPending(tasks, idx)
    ensures |idx| > 0 && idx[0] == 0 && r[0] == tasks[0]
  {
    assert 0 in idx;
    var k0 :| 0 <= k0 < |idx| && idx[k0] == 0;
    if k0 > 0 {
      assert idx[0] < idx[k0];
    }
  }

  /** A selection covering the pending positions of a collection whose first task is
      pending starts with that task, and the rest of it is a selection of the rest. */
  lemma DropPendingHead(tasks: seq<Task>, r: seq<Task>, idx: seq<int>)
    requires tasks != [] && !IsDone(tasks[0])
    requires SelectedAt(r, tasks, idx) && CoversPending(tasks, idx)
    ensures |r| > 0 && r[0] == tasks[0]
    ensures SelectedAt(r[1..], tasks[1..], Shift(idx[1..], -1))
    ensures CoversPending(tasks[1..], Shift(idx[1..], -1))
  {
    PendingHeadPickedFirst(tasks, r, idx);
    var tail := tasks[1..];
    var idx1 := idx[1..];
    var idx' := Shift(idx1, -1);
    var r' := r[1..];
    forall k | 0 <= k < |idx'| ensures 0 <= idx'[k] < |tail| && r'[k] == tail[idx'[k]] {
      assert idx1[k] == idx[k + 1];
      assert idx[0] < idx[k + 1];
      assert r'[k] == r[k + 1];
    }
    forall k, l | 0 <= k < l < |idx'| ensures idx'[k] < idx'[l] {
      assert idx1[k] == idx[k + 1] && idx1[l] == idx[l + 1];
    }
    forall i | 0 <= i < |tail| ensures i in idx' <==> !IsDone(tail[i]) {
      ShiftMembership(idx1, -1, i);
      assert tail[i] == tasks[i + 1];
      assert idx == [idx[0]] + idx1;
    }
  }

  /** ... and the only one: whatever list picks, in increasing order, exactly the
      positions of the pending tasks is `Pending(tasks)`. */
  lemma {:induction false} PendingIsTheOnlySelection(tasks: seq<Task>, r: seq<Task>, idx: seq<int>)
    requires SelectedAt(r, tasks, idx)
    requires CoversPending(tasks, idx)
    ensures r == Pending(tasks)
  {
    if tasks == [] {
    } else if IsDone(tasks[0]) {
      DropDoneHead(tasks, r, idx);
      PendingIsTheOnlySelection(tasks[1..], r, Shift(idx, -1));
      assert Pending(tasks) == Pending(tasks[1..]);
    } else {
      DropPendingHead(tasks, r, idx);
      PendingIsTheOnlySelection(tasks[1..], r[1..], Shift(idx[1..], -1));
      assert r == [r[0]] + r[1..];
      assert Pending(tasks) == [tasks[0]] + Pending(tasks[1..]);
    }
  }

  /** Each pending task occurs in the filtered list as often as in the collection, and a
      done task not at all. */
  lemma {:induction false} PendingKeepsMultiplicity(tasks: seq<Task>)
    ensures forall t :: multiset(Pending(tasks))[t] == if IsDone(t) then 0 else multiset(tasks)[t]
  {
    if tasks != [] {
      PendingKeepsMultiplicity(tasks[1..]);
      assert tasks == [tasks[0]] + tasks[1..];
      assert multiset(tasks) == multiset([tasks[0]]) + multiset(tasks[1..]);
    }
  }

  /** A list with no done task passes the filter unchanged. */
  lemma {:induction false} PendingOfPendingOnly(tasks: seq<Task>)
    requires forall i :: 0 <= i < |tasks| ==> !IsDone(tasks[i])
    ensures Pending(tasks) == tasks
  {
    if tasks != [] {
      PendingOfPendingOnly(tasks[1..]);
      assert tasks == [tasks[0]] + tasks[1..];
    }
  }

  /** Filtering again changes nothing, whatever the flag. */
  lemma FilterIdempotent(tasks: seq<Task>, showDone: bool)
    ensures FilterTasks(FilterTasks(tasks, showDone), showDone) == FilterTasks(tasks, showDone)
  {
    if !showDone {
      PendingOfPendingOnly(Pending(tasks));
    }
  }

  /** Hiding done tasks distributes over concatenation of collections. */
  lemma {:induction false} PendingConcat(a: seq<Task>, b: seq<Task>)
    ensures Pending(a + b) == Pending(a) + Pending(b)
  {
    if a == [] {
      assert a + b == b;
    } else {
      var head := if IsDone(a[0]) then [] else [a[0]];
      assert (a + b)[0] == a[0];
      assert (a + b)[1..] == a[1..] + b;
      calc {
        Pending(a + b);
        head + Pending(a[1..] + b);
        { PendingConcat(a[1..], b); }
        head + (Pending(a[1..]) + Pending(b));
        (head + Pending(a[1..])) + Pending(b);
      }
    }
  }
}

=== FILE: task_list.dfy ===
/** The task-list screen's controller: the fetched collection, the "show done tasks"
    preference, the add-task modal flag and the rendered list, with the operations the
    screen runs against the server and local storage. Each operation is one settled step
    taking the outcomes of the calls it awaits and returning the new state and the
    effects it issued. */
module TaskList {
  import opened Wrappers
  import opened JsValues
  import opened JsStrings
  import opened Dates
  import opened Tasks
  import opened TaskFilter
  import opened Effects
  import opened Common

  /** `showDone` is the truthiness of `showDoneTasks`. The filter and the eye icon test
      that value for truthiness; the filter effect's dependency compares it by identity,
      so storing a different truthy value re-runs the filter, but with the same result as
      before. Keeping only the truthiness therefore loses nothing the screen shows. */
  datatype State = State(tasks: seq<Task>, showDone: bool, modalOpen: bool, visible: seq<Task>)

  /** A state after one operation, and the effects it issued in order. */
  datatype Step = Step(state: State, effects: seq<Effect>)

  /** The rendered list agrees with the collection and the flag. */
  predicate Settled(s: State)
  {
    s.visible == FilterTasks(s.tasks, s.showDone)
  }

  /** The text `toggleVisibility` stores: `JSON.stringify({ showDoneTasks: v })`. */
  function PreferenceBlob(v: bool): Blob
  {
    Stringify(JObj(map[PreferenceKey := JBool(v)]))
  }

  /** The alert raised for a blank description. */
  const InvalidDataAlert: Effect := Alert("Dados inválidos", Text("Preencha essa merda!"))

  /** The fixed time of day of the fetch bound, 20:59:59. */
  const BoundSecond: int := ClockTime(20, 59, 59)

  /** The state the screen mounts with. */
  function Initial(): (s: State)
    ensures Settled(s)
    ensures s.tasks == [] && s.visible == [] && s.showDone && !s.modalOpen
  {
    State([], true, false, [])
  }

  /** The re-render after `before` was changed to `after` by state setters: the filter
      effect runs when the collection was replaced (`setTasks` always passes a new array)
      or the flag changed; otherwise the rendered list stays as it was. */
  function Rerender(before: State, after: State, replaced: bool): (s: State)
    ensures s.tasks == after.tasks && s.showDone == after.showDone && s.modalOpen == after.modalOpen
    ensures replaced || after.showDone != before.showDone ==> Settled(s)
    ensures !replaced && after.showDone == before.showDone ==> s.visible == before.visible
  {
    if replaced || after.showDone != before.showDone then
      after.(visible := FilterTasks(after.tasks, after.showDone))
    else
      after.(visible := before.visible)
  }

  /** The upper date bound of the fetch: `daysAhead` days after `now`, at 20:59:59. */
  function MaxDate(now: Instant, daysAhead: int): (d: Instant)
    ensures d.day == now.day + daysAhead
    ensures d.second == BoundSecond
  {
    DateTime(AddDays(now, daysAhead).day, BoundSecond)
  }

  /** The bound depends on the calendar day of `now`, never on its time of day. */
  lemma MaxDateIgnoresTimeOfDay(a: Instant, b: Instant, daysAhead: int)
    requires a.day == b.day
    ensures MaxDate(a, daysAhead) == MaxDate(b, daysAhead)
  {
  }

  /** A wider window never has an earlier bound. */
  lemma MaxDateMonotone(now: Instant, n: int, m: int)
    requires n < m
    ensures Before(MaxDate(now, n), MaxDate(now, m))
  {
  }

  /** For today's list the bound lies before the current time exactly when the current
      time of day is past 20:59:59: from 21:00 on, tasks due later that evening are not
      requested. */
  lemma TodayBoundPrecedesNowIff(now: Instant)
    ensures Before(MaxDate(now, 0), now) <==> now.second > BoundSecond
  {
  }

  /** `loadTasks`: fetch the tasks up to the bound; on success replace the collection
      wholesale with the response, on failure keep it and report the error. */
  function LoadTasks(s: State, now: Instant, daysAhead: int, fetched: Outcome<seq<Task>>): (r: Step)
    ensures RequestsOf(r.effects) == [GetTasks(MaxDate(now, daysAhead))]
    ensures r.effects[0] == Request(GetTasks(MaxDate(now, daysAhead)))
    ensures |r.effects| == 1 + |AlertsOf(r.effects)|
    ensures ReloadCount(r.effects) == 0
    ensures r.state.showDone == s.showDone && r.state.modalOpen == s.modalOpen
    ensures fetched.Ok? ==> r.state.tasks == fetched.data && Settled(r.state)
    ensures fetched.Ok? ==> AlertsOf(r.effects) == []
    ensures fetched.Err? ==> r.state == s
    ensures fetched.Err? ==> AlertsOf(r.effects) == [ShowError(fetched.error)]
  {
    var get := Request(GetTasks(MaxDate(now, daysAhead)));
    ViewsOfSingleton(get);
    match fetched
    case Ok(data) => Step(Rerender(s, s.(tasks := data), true), [get])
    case Err(e) =>
      ViewsOfPair(get, ShowError(e));
      Step(s, [get, ShowError(e)])
  }

  /** `toggleVisibility`: flip the flag and store it; nothing goes to the server and the
      collection is untouched. */
  function ToggleVisibility(s: State): (r: Step)
    ensures r.state.showDone == !s.showDone
    ensures r.state.tasks == s.tasks && r.state.modalOpen == s.modalOpen
    ensures Settled(r.state)
    ensures r.effects == [Persist(PreferenceKey, PreferenceBlob(!s.showDone))]
  {
    var v := !s.showDone;
    Step(Rerender(s, s.(showDone := v), false), [Persist(PreferenceKey, PreferenceBlob(v))])
  }

  /** Whether `getTasksStates` adopts the stored value: the key was found, its text
      parsed, and the parsed value is truthy. */
  predicate AdoptsStored(read: StorageRead)
  {
    read.Found? && Parse(read.blob).Some? && Truthy(Parse(read.blob).value)
  }

  /** `getTasksStates`: read the stored preference. A missing key, a failed read, text
      that does not parse and a falsy parsed value all leave the flag as it was (the
      failures are logged); otherwise the flag becomes the stored `showDoneTasks`
      property, read with JavaScript truthiness. */
  function LoadPreference(s: State, read: StorageRead): (r: Step)
    ensures r.state.tasks == s.tasks && r.state.modalOpen == s.modalOpen
    ensures RequestsOf(r.effects) == [] && AlertsOf(r.effects) == [] && ReloadCount(r.effects) == 0
    ensures !AdoptsStored(read) ==> r.state == s
    ensures AdoptsStored(read) ==>
              r.state.showDone == TruthyOpt(Property(Parse(read.blob).value, PreferenceKey))
    ensures Settled(s) ==> Settled(r.state)
    ensures r.effects == if read.ReadFailed? || (read.Found? && read.blob.Unparseable?) then [Warn] else []
  {
    ViewsOfSingleton(Warn);
    match read
    case ReadFailed => Step(s, [Warn])
    case NotFound => Step(s, [])
    case Found(blob) =>
      match Parse(blob)
      case None => Step(s, [Warn])
      case Some(v) =>
        if Truthy(v) then
          Step(Rerender(s, s.(showDone := TruthyOpt(Property(v, PreferenceKey))), false), [])
        else
          Step(s, [])
  }

  /** What `toggleVisibility` stores, `getTasksStates` reads back as the same flag. */
  lemma PreferenceRoundTrip(s: State, t: State)
    ensures var w := ToggleVisibility(s);
            LoadPreference(t, Found(w.effects[0].blob)).state.showDone == w.state.showDone
  {
    var v := !s.showDone;
    var stored := JObj(map[PreferenceKey := JBool(v)]);
    ParseStringify(stored);
    assert Property(stored, PreferenceKey) == Some(JBool(v));
  }

  /** Before anything is stored, the flag keeps its default: tasks done are shown. */
  lemma PreferenceDefault()
    ensures LoadPreference(Initial(), NotFound).state.showDone
    ensures LoadPreference(Initial(), ReadFailed).state.showDone
    ensures LoadPreference(Initial(), Found(Unparseable)).state.showDone
    ensures LoadPreference(Initial(), Found(Encoded(JNull))).state.showDone
  {
  }

  /** The effects of submitting a non-blank task: the post, then the error report when it
      failed, then the fetch that refreshes the list. */
  function SubmitEffects(t: NewTask, posted: Outcome<()>): (es: seq<Effect>)
    ensures RequestsOf(es) == [PostTask(t.description, t.date)]
    ensures |es| >= 2 && es[0] == Request(PostTask(t.description, t.date)) && es[|es| - 1] == Reload
    ensures ReloadCount(es) == 1
    ensures |es| == 1 + ReloadCount(es) + |AlertsOf(es)|
    ensures AlertsOf(es) == (if posted.Err? then [ShowError(posted.error)] else [])
  {
    var post := Request(PostTask(t.description, t.date));
    match posted
    case Ok(_) =>
      ViewsOfPair(post, Reload);
      [post, Reload]
    case Err(e) =>
      ViewsOfTriple(post, ShowError(e), Reload);
      ViewsOfPair(ShowError(e), Reload);
      [post, ShowError(e), Reload]
  }

  /** `addTask`: a description that is blank after trimming raises the invalid-data alert
      and nothing else. Any other description is posted as typed, together with the date;
      then, whether the post failed (reported first) or not, the modal closes and the
      tasks are fetched again. The collection itself is never patched locally. */
  function AddTask(s: State, t: NewTask, posted: Outcome<()>): (r: Step)
    ensures r.state.tasks == s.tasks && r.state.showDone == s.showDone && r.state.visible == s.visible
    ensures Trim(t.description) == [] ==>
              && r.state == s
              && RequestsOf(r.effects) == [] && ReloadCount(r.effects) == 0
              && r.effects == [InvalidDataAlert]
    ensures Trim(t.description) != [] ==>
              && !r.state.modalOpen
              && r.effects == SubmitEffects(t, posted)
  {
    if Trim(t.description) == [] then
      ViewsOfSingleton(InvalidDataAlert);
      Step(s, [InvalidDataAlert])
    else
      Step(Rerender(s, s.(modalOpen := false), false), SubmitEffects(t, posted))
  }

  /** `toggleTaskStatus`: ask the server to flip the task; fetch again only on success.
      A failure is swallowed: no alert, no fetch. The collection is not touched. */
  function ToggleTaskStatus(s: State, id: TaskId, put: Outcome<()>): (r: Step)
    ensures r.state == s
    ensures RequestsOf(r.effects) == [PutToggle(id)]
    ensures r.effects[0] == Request(PutToggle(id))
    ensures |r.effects| == 1 + ReloadCount(r.effects) + |AlertsOf(r.effects)|
    ensures AlertsOf(r.effects) == []
    ensures ReloadCount(r.effects) == (if put.Ok? then 1 else 0)
  {
    var req := Request(PutToggle(id));
    ViewsOfSingleton(req);
    ViewsOfPair(req, Reload);
    if put.Ok? then Step(s, [req, Reload]) else Step(s, [req])
  }

  /** `deleteTask`: ask the server to remove the task; fetch again on success, report the
      error on failure (without fetching). The collection is not touched. */
  function DeleteTask(s: State, id: TaskId, deleted: Outcome<()>): (r: Step)
    ensures r.state == s
    ensures RequestsOf(r.effects) == [DeleteById(id)]
    ensures r.effects[0] == Request(DeleteById(id))
    ensures |r.effects| == 1 + ReloadCount(r.effects) + |AlertsOf(r.effects)|
    ensures ReloadCount(r.effects) == (if deleted.Ok? then 1 else 0)
    ensures AlertsOf(r.effects) == (if deleted.Err? then [ShowError(deleted.error)] else [])
  {
    var req := Request(DeleteById(id));
    ViewsOfPair(req, Reload);
    match deleted
    case Ok(_) => Step(s, [req, Reload])
    case Err(e) =>
      ViewsOfPair(req, ShowError(e));
      Step(s, [req, ShowError(e)])
  }

  /** Runs the fetch a step asked for, if it asked for one. */
  function ThenReload(r: Step, now: Instant, daysAhead: int, fetched: Outcome<seq<Task>>): (r': Step)
    ensures Reload !in r.effects ==> r' == r
    ensures Reload in r.effects ==>
              r'.state == LoadTasks(r.state, now, daysAhead, fetched).state
              && r'.effects == r.effects + LoadTasks(r.state, now, daysAhead, fetched).effects
    ensures Reload in r.effects ==>
              && RequestsOf(r'.effects) == RequestsOf(r.effects) + [GetTasks(MaxDate(now, daysAhead))]
              && AlertsOf(r'.effects) == AlertsOf(r.effects) + (if fetched.Err? then [ShowError(fetched.error)] else [])
              && ReloadCount(r'.effects) == ReloadCount(r.effects)
  {
    if Reload in r.effects then
      var l := LoadTasks(r.state, now, daysAhead, fetched);
      RequestsOfConcat(r.effects, l.effects);
      AlertsOfConcat(r.effects, l.effects);
      ReloadCountConcat(r.effects, l.effects);
      Step(l.state, r.effects + l.effects)
    else
      r
  }

  /** The user and service events the screen reacts to, with the outcomes of the calls
      they await. */
  datatype Event =
    | Fetched(now: Instant, fetched: Outcome<seq<Task>>)    // a `loadTasks` run
    | PreferenceRead(read: StorageRead)                     // `getTasksStates` on mount
    | EyePressed                                            // the visibility toggle
    | AddPressed                                            // the "+" button
    | ModalCancelled                                        // the modal's `onCancel`
    | TaskSubmitted(task: NewTask, posted: Outcome<()>)     // the modal's `onSave`
    | CheckRequested(id: TaskId, put: Outcome<()>)          // a row's `toggleTaskStatus`
    | DeleteRequested(id: TaskId, deleted: Outcome<()>)     // a row's `onDelete`

  /** One event applied to the screen state. */
  function Dispatch(s: State, daysAhead: int, e: Event): (r: Step)
    ensures Settled(s) ==> Settled(r.state)
    ensures |RequestsOf(r.effects)| <= 1
    ensures e.Fetched? ==> r == LoadTasks(s, e.now, daysAhead, e.fetched)
    ensures e.PreferenceRead? ==> r == LoadPreference(s, e.read)
    ensures e.EyePressed? ==> r == ToggleVisibility(s)
    ensures e.TaskSubmitted? ==> r == AddTask(s, e.task, e.posted)
    ensures e.CheckRequested? ==> r == ToggleTaskStatus(s, e.id, e.put)
    ensures e.DeleteRequested? ==> r == DeleteTask(s, e.id, e.deleted)
    ensures e.AddPressed? ==> r.state.modalOpen && r.effects == []
    ensures e.ModalCancelled? ==> !r.state.modalOpen && r.effects == []
    ensures (e.AddPressed? || e.ModalCancelled?) ==>
              r.state.tasks == s.tasks && r.state.showDone == s.showDone
  {
    match e
    case Fetched(now, fetched) => LoadTasks(s, now, daysAhead, fetched)
    case PreferenceRead(read) => LoadPreference(s, read)
    case EyePressed => ToggleVisibility(s)
    case AddPressed => Step(Rerender(s, s.(modalOpen := true), false), [])
    case ModalCancelled => Step(Rerender(s, s.(modalOpen := false), false), [])
    case TaskSubmitted(t, posted) => AddTask(s, t, posted)
    case CheckRequested(id, put) => ToggleTaskStatus(s, id, put)
    case DeleteRequested(id, deleted) => DeleteTask(s, id, deleted)
  }

  /** A sequence of events applied one after the other; the effects are concatenated. */
  function Run(s: State, daysAhead: int, events: seq<Event>): Step
    decreases |events|
  {
    if events == [] then Step(s, [])
    else
      var first := Dispatch(s, daysAhead, events[0]);
      var rest := Run(first.state, daysAhead, events[1..]);
      Step(rest.state, first.effects + rest.effects)
  }

  /** Every settled step keeps the rendered list equal to the filtered collection. */
  lemma {:induction false} RunKeepsSettled(s: State, daysAhead: int, events: seq<Event>)
    requires Settled(s)
    ensures Settled(Run(s, daysAhead, events).state)
    decreases |events|
  {
    if events != [] {
      RunKeepsSettled(Dispatch(s, daysAhead, events[0]).state, daysAhead, events[1..]);
    }
  }

  /** Each event sends at most one request to the server: a run of events never sends
      more requests than it has events (a fetch that follows a mutation is an event of
      its own). */
  lemma {:induction false} RunRequestsAtMostEvents(s: State, daysAhead: int, events: seq<Event>)
    ensures |RequestsOf(Run(s, daysAhead, events).effects)| <= |events|
    decreases |events|
  {
    if events != [] {
      var first := Dispatch(s, daysAhead, events[0]);
      var rest := Run(first.state, daysAhead, events[1..]);
      RunRequestsAtMostEvents(first.state, daysAhead, events[1..]);
      RequestsOfConcat(first.effects, rest.effects);
    }
  }

  /** From mounting on, whatever happens, the screen shows `filter(tasks, showDone)`. */
  lemma ReachableStatesAreSettled(daysAhead: int, events: seq<Event>)
    ensures var s := Run(Initial(), daysAhead, events).state;
            s.visible == FilterTasks(s.tasks, s.showDone)
  {
    RunKeepsSettled(Initial(), daysAhead, events);
  }
}

=== FILE: tasks.dfy ===
/** A task as the server sends it, and the derivations one row of the list makes from it
    (the `Task` component): the done styling, the date shown, the check view and which
    callback each gesture invokes. */
module Tasks {
  import opened Wrappers
  import opened Dates

  type TaskId = int

  /** A task: `doneAt` is the completion time, absent (`null`) while the task is pending. */
  datatype Task = Task(id: TaskId, description: string, estimatedDate: Instant, doneAt: Option<Instant>)

  /** The task the add-task form hands to the list screen: `{ description, date }`. */
  datatype NewTask = NewTask(description: string, date: Instant)

  /** `task.doneAt` is truthy. A completion time sent by the server is never empty, so
      truthiness is presence. */
  predicate IsDone(t: Task)
  {
    t.doneAt.Some?
  }

  datatype TextDecoration = LineThrough | NoDecoration

  /** Style of the description text: struck through for a completed task. */
  function DescriptionDecoration(t: Task): (d: TextDecoration)
    ensures d == LineThrough <==> IsDone(t)
  {
    if t.doneAt.Some? then LineThrough else NoDecoration
  }

  /** The date shown under the description: `doneAt || estimatedDate`. */
  function DisplayedDate(t: Task): (d: Instant)
    ensures IsDone(t) ==> d == t.doneAt.value
    ensures !IsDone(t) ==> d == t.estimatedDate
  {
    t.doneAt.GetOr(t.estimatedDate)
  }

  datatype CheckView = CheckMark | PendingCircle

  /** `getCheckView(doneAt)`: a check mark for a done task, an empty circle otherwise. */
  function CheckViewOf(t: Task): (v: CheckView)
    ensures v == CheckMark <==> IsDone(t)
  {
    if t.doneAt.Some? then CheckMark else PendingCircle
  }

  /** The three gestures a row reacts to. */
  datatype Gesture = CheckPressed | RightActionPressed | SwipedLeftOpen

  /** The parent callbacks a row can invoke, with the argument it passes. */
  datatype Callback = ToggleTaskStatus(taskId: TaskId) | OnDelete(taskId: TaskId)

  /** Which callback a gesture on the row for `t` invokes: a press on the check toggles,
      the right action and a completed left swipe both delete. */
  function RowCallback(t: Task, g: Gesture): (c: Callback)
    ensures c.taskId == t.id
    ensures c.ToggleTaskStatus? <==> g == CheckPressed
  {
    match g
    case CheckPressed => ToggleTaskStatus(t.id)
    case RightActionPressed => OnDelete(t.id)
    case SwipedLeftOpen => OnDelete(t.id)
  }

  /** The three done-dependent parts of a row agree: the text is struck through exactly
      when the check mark shows, and the date shown is then the completion time. */
  lemma RowPresentationAgrees(t: Task)
    ensures DescriptionDecoration(t) == LineThrough <==> CheckViewOf(t) == CheckMark
    ensures CheckViewOf(t) == CheckMark ==> Some(DisplayedDate(t)) == t.doneAt
    ensures CheckViewOf(t) == PendingCircle ==> DisplayedDate(t) == t.estimatedDate
  {
  }
}

=== FILE: wrappers.dfy ===
/** The optional-value datatype the rest of the model builds on. */
module Wrappers {

  /** A value that may be absent; `None` stands for JavaScript's `null`/`undefined`
      wherever a source value may be missing. */
  datatype Option<+T> = None | Some(value: T) {

    /** Returns the value held in Some, or `default` when None. */
    function GetOr(default: T): (r: T)
      ensures Some? ==> r == value
      ensures None? ==> r == default
    {
      match this
      case Some(v) => v
      case None => default
    }
  }
}
